=== FILE: README.md ===
# EcoGarden API — a Dafny model of its request handlers

EcoGarden is a small REST backend. It serves monthly gardening advice and user accounts, and it proxies a weather provider. This project models the backend's own decision logic as pure transitions over in-memory state:

- Each advice handler and user handler takes a table and the request inputs. It returns the table afterwards and the response (status code and body kind). The user handlers also return the ordered list of side effects they perform: persist, remove, flush, and invalidation of the `usersCache` tag.
- The weather handlers are a read-through cache over an abstract provider. The cache maps a key to a body and an expiry time. The clock is a parameter.
- The fixtures loader builds the seeded tables.

Collaborators are replaced by parameters:
- the validator: a function from an entity to its list of violations;
- the password hasher: a function of the user and the plaintext;
- the weather provider: a function from the location identifier to a status and a body;
- the clock: the current month for the advice listing, the current time in seconds for the cache;
- the caller: a `Principal` that is anonymous, an application User, or another authenticated principal.

Modules, one file each:
- `Common`: optional values, statuses, violations, and PHP's int-to-string conversion.
- `Repository`: a table with an auto-increment key counter, and ordered selection.
- `AdviceEntity`: the Advice record and its getters and setters.
- `UserEntity`: the User record and the hasher type.
- `Security`: the `IsGranted('ROLE_ADMIN')` gate.
- `AdviceController`, `UserController`, `WeatherController`: the handlers.
- `Fixtures`: the seed data.

Points where the code, or the framework around it, decides the behaviour:
- **Check order.** `updateAdvice`, `updateUser` and `deleteUser` take the entity itself as an argument. Symfony resolves that argument before the `IsGranted` listener runs. So a missing id answers 404 (`EntityNotFound`) even to an authenticated non-admin caller. Under the model's assumption of no firewall access rule, this holds for an anonymous caller too; see "## Left out". The explicit `if (!$user)` 404 branches in `updateUser` and `deleteUser` are therefore never the ones that answer. `postAdvice`, `createUser` and `deleteAdvice` run the admin gate first. A refused caller gets 401 when anonymous and 403 otherwise.
- **Advice update status.** A successful advice update answers 201, not 200. Both create and update of an advice answer with a message only, not the record.
- **NOT NULL columns.** Both advice columns are mapped with a plain `#[ORM\Column]`, which is NOT NULL. A create or update whose record the validator accepts but which lacks its text or its month fails at the flush: 500, nothing stored. On a table whose rows all have both columns set, an update never hits this.
- **Month range.** No month range is enforced by the code. The entity accepts any int, and the validator is abstract. A lookup for month 13 answers 404 only because no such record exists; `Fixtures.SeededMonthLookup` proves this for the seeded table.
- **Postcode pattern.** The check is `preg_match('/^\d{5}$/')`. Under PCRE, `$` without the D modifier also matches just before one final newline, so `"12345\n"` passes. A null postcode is read as the empty string and fails.
- **Missing password.** `createUser` with no password reaches `hashPassword(…, null)`. Its string parameter throws there, so the request ends in a 500 with nothing written.
- **Password update.** `updateUser` writes every present body field as given. A new password is stored without hashing, and roles are taken from the body.
- **Invalid cache keys.** Symfony's cache adapters check keys (non-empty, none of `{}()/\@:`) only inside PHP assertions. Whether they are enabled is a parameter, `checksKeys`, of the weather handlers. With checks on, a city such as `Paris:FR` (key `weather_Paris:FR`) ends in a 500 before the cache or the provider is used. With checks off, as in a production build, every key is served like any other.
- **Failure caching.** A provider failure is cached as the error JSON for the full hour. The response is 200 whenever the key is valid.
- **Integer postcodes.** The fixtures give postcodes as integers. The model converts them to decimal strings, so a postcode with a leading zero would lose it (`UserController.LeadingZeroIntegerFails`).

## Model

| member | source | states |
|---|---|---|
| UserEntity.NewUser | src/Controller/UserController.php:65 | a freshly deserialized user starts with no id, email, password or postcode and no role |
| Common.IntToStringShape | src/DataFixtures/AppFixtures.php:53-67 | PHP's int-to-string cast of the integer postcodes: ASCII digits with no leading zero except for 0 itself, behind a minus sign for a negative value, whose decimal value is the number |
| Common.DecimalRoundTrip | src/DataFixtures/AppFixtures.php:53-67 | reading the decimal rendering of a non-negative int back digit by digit gives that int |
| Common.IntToStringInjective | src/DataFixtures/AppFixtures.php:53-67 | two ints render as the same string iff they are equal |
| Repository.Insert | src/Controller/AdviceController.php:226-227 | persisting a new row stores it under a key no row had, adds exactly one key and changes no other row |
| Repository.Find | src/Controller/AdviceController.php:97-101 | the lookup is null iff no row has that key, and otherwise gives that key's row |
| Repository.Save | src/Controller/UserController.php:150 | flushing a modified managed row replaces only that row and keeps the keys and the counter |
| Repository.Delete | src/Controller/AdviceController.php:319-320 | removing a row drops exactly that key and keeps every other row as it was |
| Repository.KeysWhere | src/Controller/AdviceController.php:170 | the keys returned are exactly those of the rows meeting the criterion, each once, in ascending order |
| Repository.Select | src/Controller/AdviceController.php:59 | a `findBy`/`findAll` returns only rows meeting the criterion, and every such row of a valid table |
| AdviceEntity.NewAdvice | src/Entity/Advice.php:11-20 | a fresh advice has id, text and month all null |
| AdviceEntity.SetAdviceText | src/Entity/Advice.php:27-37 | after the setter the getter returns the new text; id and month are unchanged |
| AdviceEntity.SetMonth | src/Entity/Advice.php:39-49 | any int is stored as given, with no range check; id and text are unchanged |
| AdviceEntity.MutatorsNeverAssignId | src/Entity/Advice.php:11-14 | no sequence of entity method calls changes the id; only persistence assigns it |
| AdviceEntity.LastSetTextWins | src/Entity/Advice.php:32-37 | after any sequence of calls ending in a text setter, the getter returns that text |
| AdviceEntity.TextKeptWithoutTextSetter | src/Entity/Advice.php:32-49 | a sequence of calls none of which sets the text leaves the text as it was |
| Security.RequireAdmin | src/Controller/AdviceController.php:216 | the gate lets a caller through iff it holds ROLE_ADMIN; an anonymous caller gets 401, any other refused caller 403 |
| AdviceController.Populate | src/Controller/AdviceController.php:268 | a body merged onto a record overwrites exactly the fields it carries and never the id |
| AdviceController.ReapplyingBodyChangesNothing | src/Controller/AdviceController.php:270-278 | the explicit `isset` re-setting after population leaves the record as population made it |
| AdviceController.SelectAscending | src/Controller/AdviceController.php:136 | listings from a consistent table come out by strictly ascending id, so without repeats |
| AdviceController.GetAllAdvices | src/Controller/AdviceController.php:57-63 | 200 with every stored advice exactly once, by ascending id; the table is unchanged |
| AdviceController.GetAdviceById | src/Controller/AdviceController.php:95-105 | 404 iff the id is absent; otherwise 200 with the record carrying that id; the table is unchanged |
| AdviceController.GetAdvicesForCurrentMonth | src/Controller/AdviceController.php:132-140 | always 200 with exactly the advices of the supplied month, possibly none; the table is unchanged |
| AdviceController.GetAdviceByMonth | src/Controller/AdviceController.php:168-179 | 404 iff no advice has that month; otherwise 200 with exactly that month's advices; the table is unchanged |
| AdviceController.PostAdvice | src/Controller/AdviceController.php:215-230 | admin only (401 anonymous, 403 otherwise); a validator failure gives 400 with the violations and stores nothing; a valid body lacking text or month gives 500 and stores nothing; 201 iff admin, valid and complete, adding exactly one record holding the body's text and month, under the counter's key, and advancing the counter by one |
| AdviceController.UpdateAdvice | src/Controller/AdviceController.php:266-290 | 404 iff the id is absent; otherwise admin only (401/403); present fields overwrite, absent ones and the id are kept; a validator failure gives 400 with the violations and stores nothing; a merge lacking a NOT NULL column gives 500, never on a consistent table; success gives 201, changes no other record and keeps the counter |
| AdviceController.DeleteAdvice | src/Controller/AdviceController.php:311-323 | admin only (401/403); then 404 iff the id is absent; success removes only that record, keeps the counter and gives 200 |
| AdviceController.DeleteTwiceIsNotFound | src/Controller/AdviceController.php:313-322 | deleting a present id succeeds, and repeating it gives 404 and changes nothing |
| AdviceController.CreatedAdviceIsFoundByMonth | src/Controller/AdviceController.php:221-229 | after a successful create, the lookup on the advice's month gives 200 and lists the new record |
| AdviceController.MonthOnlyUpdateKeepsText | src/Controller/AdviceController.php:268-278 | updating {A, 3} with a body holding only month 5 gives {A, 5} |
| UserController.PostCodeShape | src/Controller/UserController.php:74 | the pattern accepts exactly five ASCII digits, optionally followed by one trailing newline |
| UserController.FiveDigitIntegerPasses | src/DataFixtures/AppFixtures.php:53 | an integer postcode with five digits passes the pattern once converted to a string |
| UserController.LeadingZeroIntegerFails | src/Controller/UserController.php:74 | every int from 0 to 9999, i.e. every five-digit postcode with a leading zero stored as an integer, renders with at most four digits and is rejected |
| UserController.Subject | src/Controller/UserController.php:74 | the subject matched is the postcode itself, and a null postcode, read as the empty string, never matches |
| UserController.Populate | src/Controller/UserController.php:138 | a body merged onto a user overwrites exactly the fields it carries, roles and password included, and never the id |
| UserController.CreateUser | src/Controller/UserController.php:63-91 | admin only (401/403); the validator runs before the postcode check and either failure gives 400 with nothing written; a missing password then gives 500; success advances the counter by one and stores hash(plaintext) in place of the password and roles exactly [ROLE_USER], gives 201, and invalidates the users cache after persist and flush |
| UserController.UpdateUser | src/Controller/UserController.php:130-157 | 404 iff the id is absent; otherwise admin only (401/403); present fields, roles and password included, overwrite as given; a validator failure gives 400 with the violations and a postcode failure 400 with the update message, nothing written; success keeps the keys and the counter, gives 200, then flush and cache invalidation |
| UserController.DeleteUser | src/Controller/UserController.php:186-199 | 404 iff the id is absent; otherwise admin only (401/403); success removes only that user, keeps the counter, gives 200, and invalidates the cache after the flush |
| UserController.InvalidationFollowsWrite | src/Controller/UserController.php:83-86 | whenever a user handler invalidates the users cache, this is its last effect and comes right after a flush |
| UserController.ShortPostCodeRejected | src/Controller/UserController.php:74-76 | a body with postcode "123" that passes the validator gets 400 with the postcode message, and nothing is stored |
| UserController.DeleteUserTwiceIsNotFound | src/Controller/UserController.php:187-198 | a second delete of the same user gives 404 and writes nothing |
| WeatherController.CacheKey | src/Controller/ExternalWeatherApiController.php:50 | the key is "weather_" followed by the identifier |
| WeatherController.CacheKeyValidity | src/Controller/ExternalWeatherApiController.php:50-51 | a location's key passes the cache's key check iff the location holds no reserved character |
| WeatherController.CacheKeyInjective | src/Controller/ExternalWeatherApiController.php:110 | two identifiers share a cache entry iff they are equal |
| WeatherController.FetchBody | src/Controller/ExternalWeatherApiController.php:62-66 | a 200 reply's body is kept; any other status is replaced by the fixed error JSON |
| WeatherController.ReadThrough | src/Controller/ExternalWeatherApiController.php:51-69 | a hit before expiry returns the stored body with no provider call and no cache change; a miss makes one call and stores its result with expiry now + 3600; the status is 200 iff the cache takes the key |
| WeatherController.GetWeatherByCurrentUser | src/Controller/ExternalWeatherApiController.php:34-70 | without an application User, or with a null postcode, the answer is 500 with no call and no cache write; otherwise the read-through on the postcode |
| WeatherController.GetWeatherByCity | src/Controller/ExternalWeatherApiController.php:106-130 | at most one provider call, for the city itself; no other cache entry changes |
| WeatherController.CityAndPostCodeShareEntry | src/Controller/ExternalWeatherApiController.php:110 | a city equal to a user's postcode gives exactly the outcome of that user's request |
| WeatherController.SecondCallWithinTtlIsCached | src/Controller/ExternalWeatherApiController.php:111-112 | after a miss, a second request within 3600 seconds returns the same response with no provider call |
| WeatherController.FailureIsMemoized | src/Controller/ExternalWeatherApiController.php:122-126 | a provider failure on a miss is served as the error JSON for the whole hour, even after the provider recovers |
| WeatherController.ReservedCharacterRejected | src/Controller/ExternalWeatherApiController.php:110-111 | with key checks on, a city holding a reserved key character at any position gets 500 with no provider call and the cache unchanged |
| WeatherController.UncheckedKeysAlwaysServed | src/Controller/ExternalWeatherApiController.php:110-129 | with key checks off, a city request is answered 200 whatever characters the city holds |
| Fixtures.SeedAdvice | src/DataFixtures/AppFixtures.php:40-46 | the advice built for month m has that month, the m-th seed text and no id |
| Fixtures.NextKeys | src/DataFixtures/AppFixtures.php:45 | persisting one more row keeps the seeded keys contiguous: one more key, the counter just past it |
| Fixtures.PersistNextAdvice | src/DataFixtures/AppFixtures.php:45 | persisting the next month's advice extends the seeded rows by exactly that one |
| Fixtures.PersistAdvices | src/DataFixtures/AppFixtures.php:40-46 | the loop over any text table stores entry m-1 as month m under the m-th consecutive key, each row carrying its key |
| Fixtures.LoadAdvices | src/DataFixtures/AppFixtures.php:25-46 | twelve advices are stored under consecutive fresh keys, month m under the m-th key, with its seed text |
| Fixtures.PersistNextUser | src/DataFixtures/AppFixtures.php:73 | persisting the next hashed seed extends the seeded users by exactly that one |
| Fixtures.PersistUsers | src/DataFixtures/AppFixtures.php:63-74 | the loop over any seed list stores seed i under the i-th consecutive key, with the hash of its plaintext as password |
| Fixtures.LoadUsers | src/DataFixtures/AppFixtures.php:48-74 | the two seeds are stored in order, two rows in all, each with the hash of its plaintext as password, set before persist |
| Fixtures.Load | src/DataFixtures/AppFixtures.php:22-77 | load seeds exactly the advice rows and the user rows above |
| Fixtures.AdvicesCoverEachMonthOnce | src/DataFixtures/AppFixtures.php:40-46 | for a text table without empty entries, the stored months are exactly 1..n, one advice each, each with a non-empty text |
| Fixtures.SeededAdvicesCoverEachMonthOnce | src/DataFixtures/AppFixtures.php:25-38 | every seeded text is non-empty; every month 1..12 has exactly one seeded advice, and no other month has any |
| Fixtures.SeededMonthLookup | src/DataFixtures/AppFixtures.php:40-46 | on the seeded table a month lookup gives 200 for 1..12 and 404 otherwise, 13 included |
| Fixtures.SeededUsersAsExpected | src/DataFixtures/AppFixtures.php:48-61 | two users with distinct emails, holding [ROLE_ADMIN] and [ROLE_USER]; postcodes 71300 and 33000 pass the pattern; passwords are hash(plaintext) |

## Left out

- Doctrine internals are not modelled: the identity map, param-converter lookups and when inserts are issued. Persistence is an immediate write into a table whose auto-increment counter never reuses a key. Listings come in ascending key order; a database without ORDER BY does not promise this order, but it is the insertion order.
- The fixtures start from purged tables whose counters are parameters. The purge itself and `--append` loading are not modelled.
- JSON encoding and decoding are not modelled, and neither is the `groups` filtering of serialized fields. A request body is a record of optional fields. Malformed JSON, null-valued fields and wrongly typed fields make the framework throw; those paths are not modelled.
- The validator's constraints are not modelled, because no constraint metadata is visible for either entity. It is a parameter, so month-in-range and non-empty text are not enforced by the model unless the given validator enforces them.
- The User entity class is not part of this model. Its fields are inferred from the callers. The roles it reports are taken as stored: no implicit ROLE_USER is added, and no role hierarchy is applied.
- The column length of 255 for the advice text is not modelled. It is a database constraint.
- Integer widths are not modelled. The `month` column and the ids are Doctrine `integer` columns, which are 32-bit signed on the usual databases, while PHP's int is 64-bit and the model's is unbounded. A month outside the 32-bit range that the validator accepts would make the flush fail on such a database, but the model stores it and answers 201. Which database runs is configuration, so the model does not fix a width.
- UserController.CreateUser: the User mapping is not part of this model, so its column constraints (nullability, a unique email) are unknown. A create or update that the validator and the postcode check accept is assumed to flush. A body without an email, or repeating a stored email, gets 201 in the model, where the database might refuse the flush with a 500. The same holds for `UserController.UpdateUser`.
- The password-hashing algorithm and its random salt are not modelled; the hasher is an opaque function.
- The provider HTTP call, the API-key lookup and the query parameters are not modelled. The provider is a total function of the identifier, so transport errors, which would throw, are left out.
- The clock is a parameter. The month comes from it rather than from `new \DateTime()`, and cache time is in seconds.
- The cache's probabilistic early expiration is not modelled, because it is random. Expiry is exact: an entry is served while `now < expiresAt`.
- Cache tags are not modelled beyond the ordered invalidation effect. The cached user listings that the tag covers are not part of this model.
- OpenAPI attributes and routing are not modelled. The 401/403 answer of the admin gate stands in for the framework's exception handling.
- Concurrency between requests, and last-writer-wins races, are not modelled.
- The firewall's security configuration is not part of this model. The model assumes no `access_control` rule, so every request, anonymous ones included, reaches the controller and only the `IsGranted` attributes refuse callers. Every advice route and the user update and delete routes document a 401 for an unauthenticated caller (src/Controller/AdviceController.php:52-55, 90-93, 127-130, 163-166, 260-263; src/Controller/UserController.php:124-127, 180-183). On the four advice read routes, which carry no `IsGranted`, only a firewall rule such as `^/api` with `IS_AUTHENTICATED_FULLY` could give that answer. Such a rule runs before argument resolution. Under it, an anonymous caller gets 401 on every route it covers. The model instead answers the read handlers with 200, and `updateAdvice`, `updateUser` and `deleteUser` with 404 for an absent id. An authenticated caller is answered the same either way.
- WeatherController.GetWeatherByCity: its contract states only the call and framing facts. The full hit/miss behaviour is stated on `WeatherController.ReadThrough`, to which the handler delegates, and `CityAndPostCodeShareEntry` ties the two handlers together.

=== FILE: advice_controller.dfy ===
/**
 The advice endpoints as transitions of the advice table. Each handler takes
 the table and the request's inputs and returns the table afterwards together
 with the response. Reads never change the table; create, update and delete
 are gated on ROLE_ADMIN and change it only on success.
 */
module AdviceController {
  import opened Common
  import opened Repository
  import opened AdviceEntity
  import opened Security

  /** A request body: the JSON fields the deserializer maps onto the entity, absent ones as None. */
  datatype AdviceInput = AdviceInput(adviceText: Option<string>, month: Option<int>)

  type AdviceBody = Body<Advice>

  datatype Outcome = Outcome(table: Table<Advice>, response: Response<AdviceBody>)

  /** The validator's verdict on an advice; its constraints are not part of this model. */
  type Validator = Advice -> seq<Violation>

  const MsgNoAdviceForId := "No advice found for this ID"
  const MsgNoAdviceForMonth := "Aucun conseil trouvé pour ce mois"
  const MsgAdviceAdded := "Conseil ajouté avec succès"
  const MsgAdviceUpdated := "Conseil modifié avec succès"
  const MsgAdviceMissing := "Conseil introuvable"
  const MsgAdviceDeleted := "Conseil supprimé avec succès"

  /** The table as the database holds it: valid keys, each row carrying its own key as id and both NOT NULL columns set. */
  ghost predicate Consistent(t: Table<Advice>) {
    Valid(t) && forall k :: k in t.rows ==> t.rows[k].id == Some(k) && Persistable(t.rows[k])
  }

  /** A listing whose ids are present and strictly ascending, hence without repeats. */
  ghost predicate AscendingIds(s: seq<Advice>) {
    && (forall i :: 0 <= i < |s| ==> s[i].id.Some?)
    && (forall i, j :: 0 <= i < j < |s| ==> s[i].id.Some? && s[j].id.Some? && s[i].id.value < s[j].id.value)
  }

  /** `s` lists exactly the stored advices of month `m`, each once, by ascending id. */
  ghost predicate ListsMonth(t: Table<Advice>, s: seq<Advice>, m: int) {
    && (forall a :: a in s <==> a in t.rows.Values && a.month == Some(m))
    && AscendingIds(s)
  }

  function InMonth(m: int): Advice -> bool {
    (a: Advice) => a.month == Some(m)
  }

  /** Rows selected from a consistent table come out by strictly ascending id. */
  lemma SelectAscending(t: Table<Advice>, keep: Advice -> bool)
    requires Consistent(t)
    ensures AscendingIds(Select(t, keep))
  {
    var r := Select(t, keep);
    var ids := SelectKeys(t, keep);
    assert forall i :: 0 <= i < |r| ==> r[i].id == Some(ids[i]);
  }

  /** The setter calls the deserializer makes for a body: one per field present. */
  function SetterCalls(body: AdviceInput): seq<Mutator> {
    (if body.adviceText.Some? then [CallSetAdviceText(body.adviceText.value)] else [])
    + (if body.month.Some? then [CallSetMonth(body.month.value)] else [])
  }

  /** Deserializing a body onto an existing entity: present fields overwrite, absent ones are kept. */
  function Populate(a: Advice, body: AdviceInput): (r: Advice)
    ensures r.id == a.id
    ensures r.adviceText == (if body.adviceText.Some? then body.adviceText else a.adviceText)
    ensures r.month == (if body.month.Some? then body.month else a.month)
  {
    var calls := SetterCalls(body);
    var once := if |calls| == 0 then a else Apply(a, calls[0]);
    assert |calls| <= 2;
    assert ApplyAll(a, calls) == if |calls| == 2 then Apply(once, calls[1]) else once by {
      if |calls| >= 1 {
        assert ApplyAll(a, calls) == ApplyAll(once, calls[1..]);
        if |calls| == 2 {
          assert ApplyAll(once, calls[1..]) == ApplyAll(Apply(once, calls[1]), calls[2..]);
        }
      }
    }
    ApplyAll(a, calls)
  }

  /** The explicit `isset` block after populating sets the same values again and changes nothing. */
  lemma ReapplyingBodyChangesNothing(a: Advice, body: AdviceInput)
    ensures Populate(Populate(a, body), body) == Populate(a, body)
  {
  }

  /** getAllAdvices: every stored advice, each once, by ascending id; always 200. */
  function GetAllAdvices(t: Table<Advice>): (o: Outcome)
    ensures o.table == t && o.response.status == StatusOk && o.response.body.ListJson?
    ensures Consistent(t) ==> forall a :: a in o.response.body.entities <==> a in t.rows.Values
    ensures Consistent(t) ==> AscendingIds(o.response.body.entities)
  {
    var everything := (a: Advice) => true;
    var all := Select(t, everything);
    assert Consistent(t) ==> AscendingIds(all) by {
      if Consistent(t) {
        SelectAscending(t, everything);
      }
    }
    Outcome(t, Response(StatusOk, ListJson(all)))
  }

  /** getAdviceById: the record under `id` with 200, or 404 when there is none. */
  function GetAdviceById(t: Table<Advice>, id: int): (o: Outcome)
    ensures o.table == t
    ensures o.response.status == StatusNotFound <==> id !in t.rows
    ensures o.response.status != StatusNotFound ==> o.response.status == StatusOk
    ensures id !in t.rows ==> o.response.body == Message(MsgNoAdviceForId)
    ensures id in t.rows ==> o.response.body == EntityJson(t.rows[id])
    ensures Consistent(t) && o.response.status == StatusOk ==> o.response.body.entity.id == Some(id)
  {
    match Find(t, id)
    case None => Outcome(t, Response(StatusNotFound, Message(MsgNoAdviceForId)))
    case Some(advice) => Outcome(t, Response(StatusOk, EntityJson(advice)))
  }

  /**
   getAdvicesForCurrentMonth: the clock's month is a parameter. Always 200,
   with exactly that month's advices, possibly none.
   */
  function GetAdvicesForCurrentMonth(t: Table<Advice>, currentMonth: int): (o: Outcome)
    ensures o.table == t && o.response.status == StatusOk && o.response.body.ListJson?
    ensures Consistent(t) ==> ListsMonth(t, o.response.body.entities, currentMonth)
  {
    var list := Select(t, InMonth(currentMonth));
    assert Consistent(t) ==> AscendingIds(list) by {
      if Consistent(t) {
        SelectAscending(t, InMonth(currentMonth));
      }
    }
    Outcome(t, Response(StatusOk, ListJson(list)))
  }

  /** getAdviceByMonth: exactly that month's advices with 200, or 404 when there are none. */
  function GetAdviceByMonth(t: Table<Advice>, month: int): (o: Outcome)
    ensures o.table == t
    ensures o.response.status == StatusOk || o.response.status == StatusNotFound
    ensures Consistent(t) ==>
      (o.response.status == StatusNotFound <==> forall k :: k in t.rows ==> t.rows[k].month != Some(month))
    ensures o.response.status == StatusNotFound ==> o.response.body == Message(MsgNoAdviceForMonth)
    ensures o.response.status == StatusOk ==> o.response.body.ListJson?
    ensures Consistent(t) && o.response.status == StatusOk ==> ListsMonth(t, o.response.body.entities, month)
  {
    var list := Select(t, InMonth(month));
    assert Consistent(t) ==> AscendingIds(list) by {
      if Consistent(t) {
        SelectAscending(t, InMonth(month));
      }
    }
    if |list| == 0 then
      assert Consistent(t) ==> forall k :: k in t.rows ==> t.rows[k].month != Some(month) by {
        if Consistent(t) {
          forall k | k in t.rows
            ensures t.rows[k].month != Some(month)
          {
            assert InMonth(month)(t.rows[k]) == (t.rows[k].month == Some(month));
          }
        }
      }
      Outcome(t, Response(StatusNotFound, Message(MsgNoAdviceForMonth)))
    else
      var k0 := SelectKeys(t, InMonth(month))[0];
      assert k0 in t.rows && t.rows[k0] == list[0] && InMonth(month)(list[0]);
      Outcome(t, Response(StatusOk, ListJson(list)))
  }

  /** The record a successful create stores: the deserialized body under the next key. */
  function NewRecord(t: Table<Advice>, body: AdviceInput): Advice {
    Populate(NewAdvice(), body).(id := Some(t.nextId))
  }

  /**
   postAdvice: admin only; the deserialized body is validated; on failure 400
   with the violations and nothing stored. A record the validator accepts but
   that lacks its text or its month fails at the flush (500, nothing stored).
   Otherwise exactly one new record and 201 with a message (not the record).
   */
  function PostAdvice(t: Table<Advice>, caller: Principal, body: AdviceInput, validate: Validator): (o: Outcome)
    ensures !IsAdmin(caller) ==> o == Outcome(t, Response(RequireAdmin(caller).value, AccessDenied))
    ensures IsAdmin(caller) && |validate(Populate(NewAdvice(), body))| > 0 ==>
      o == Outcome(t, Response(StatusBadRequest, ViolationsJson(validate(Populate(NewAdvice(), body)))))
    ensures IsAdmin(caller) && |validate(Populate(NewAdvice(), body))| == 0 && (body.adviceText.None? || body.month.None?) ==>
      o == Outcome(t, Response(StatusInternalServerError, ServerError))
    ensures o.response.status == StatusCreated <==>
      IsAdmin(caller) && |validate(Populate(NewAdvice(), body))| == 0 && body.adviceText.Some? && body.month.Some?
    ensures o.response.status != StatusCreated ==> o.table == t
    ensures o.response.status == StatusCreated ==>
      && o.response.body == Message(MsgAdviceAdded)
      && o.table.nextId == t.nextId + 1
      && o.table.rows.Keys == t.rows.Keys + {t.nextId}
      && o.table.rows[t.nextId].adviceText == body.adviceText
      && o.table.rows[t.nextId].month == body.month
      && forall k :: k in t.rows && k != t.nextId ==> o.table.rows[k] == t.rows[k]
    ensures o.response.status == StatusCreated && Valid(t) ==> t.nextId !in t.rows && |o.table.rows| == |t.rows| + 1
    ensures Consistent(t) ==> Consistent(o.table)
  {
    match RequireAdmin(caller)
    case Some(status) => Outcome(t, Response(status, AccessDenied))
    case None =>
      var advice := Populate(NewAdvice(), body);
      var errors := validate(advice);
      if |errors| > 0 then
        Outcome(t, Response(StatusBadRequest, ViolationsJson(errors)))
      else if !Persistable(advice) then
        Outcome(t, Response(StatusInternalServerError, ServerError))
      else
        Outcome(Insert(t, NewRecord(t, body)), Response(StatusCreated, Message(MsgAdviceAdded)))
  }

  /**
   updateAdvice: a missing id is a 404 from the entity argument resolver,
   before the admin gate. The body is merged field by field into the stored
   record (absent fields kept, the id never touched), the merge is validated,
   and on success stored with 201, not 200. A merge lacking a NOT NULL column
   fails at the flush (500); on a consistent table that cannot happen.
   */
  function UpdateAdvice(t: Table<Advice>, caller: Principal, id: int, body: AdviceInput, validate: Validator): (o: Outcome)
    ensures o.response.status == StatusNotFound <==> id !in t.rows
    ensures id !in t.rows ==> o == Outcome(t, Response(StatusNotFound, EntityNotFound))
    ensures id in t.rows && !IsAdmin(caller) ==> o == Outcome(t, Response(RequireAdmin(caller).value, AccessDenied))
    ensures id in t.rows && IsAdmin(caller) && |validate(Populate(t.rows[id], body))| > 0 ==>
      o == Outcome(t, Response(StatusBadRequest, ViolationsJson(validate(Populate(t.rows[id], body)))))
    ensures id in t.rows && IsAdmin(caller) && |validate(Populate(t.rows[id], body))| == 0 && !Persistable(Populate(t.rows[id], body)) ==>
      o == Outcome(t, Response(StatusInternalServerError, ServerError))
    ensures Consistent(t) ==> o.response.status != StatusInternalServerError
    ensures o.response.status == StatusCreated <==>
      id in t.rows && IsAdmin(caller) && |validate(Populate(t.rows[id], body))| == 0 && Persistable(Populate(t.rows[id], body))
    ensures o.response.status != StatusCreated ==> o.table == t
    ensures o.response.status == StatusCreated ==>
      && o.response.body == Message(MsgAdviceUpdated)
      && o.table.nextId == t.nextId
      && o.table.rows.Keys == t.rows.Keys
      && o.table.rows[id].id == t.rows[id].id
      && o.table.rows[id].adviceText == (if body.adviceText.Some? then body.adviceText else t.rows[id].adviceText)
      && o.table.rows[id].month == (if body.month.Some? then body.month else t.rows[id].month)
      && forall k :: k in t.rows && k != id ==> o.table.rows[k] == t.rows[k]
    ensures Consistent(t) ==> Consistent(o.table)
  {
    match Find(t, id)
    case None => Outcome(t, Response(StatusNotFound, EntityNotFound))
    case Some(current) =>
      match RequireAdmin(caller)
      case Some(status) => Outcome(t, Response(status, AccessDenied))
      case None =>
        var populated := Populate(current, body);
        var updated := Populate(populated, body);
        ReapplyingBodyChangesNothing(current, body);
        var errors := validate(updated);
        if |errors| > 0 then
          Outcome(t, Response(StatusBadRequest, ViolationsJson(errors)))
        else if !Persistable(updated) then
          Outcome(t, Response(StatusInternalServerError, ServerError))
        else
          Outcome(Save(t, id, updated), Response(StatusCreated, Message(MsgAdviceUpdated)))
  }

  /** deleteAdvice: admin gate first, then 404 for a missing id, else only that record goes and 200. */
  function DeleteAdvice(t: Table<Advice>, caller: Principal, id: int): (o: Outcome)
    ensures !IsAdmin(caller) ==> o == Outcome(t, Response(RequireAdmin(caller).value, AccessDenied))
    ensures IsAdmin(caller) ==> (o.response.status == StatusNotFound <==> id !in t.rows)
    ensures o.response.status == StatusNotFound ==> o.table == t && o.response.body == Message(MsgAdviceMissing)
    ensures o.response.status == StatusOk <==> IsAdmin(caller) && id in t.rows
    ensures o.response.status == StatusOk ==>
      && o.response.body == Message(MsgAdviceDeleted)
      && o.table.nextId == t.nextId
      && o.table.rows.Keys == t.rows.Keys - {id}
      && forall k :: k in o.table.rows ==> o.table.rows[k] == t.rows[k]
    ensures Consistent(t) ==> Consistent(o.table)
  {
    match RequireAdmin(caller)
    case Some(status) => Outcome(t, Response(status, AccessDenied))
    case None =>
      if id !in t.rows then
        Outcome(t, Response(StatusNotFound, Message(MsgAdviceMissing)))
      else
        Outcome(Delete(t, id), Response(StatusOk, Message(MsgAdviceDeleted)))
  }

  /** Deleting the same id twice: the second call answers 404 and changes nothing. */
  lemma DeleteTwiceIsNotFound(t: Table<Advice>, caller: Principal, id: int)
    requires IsAdmin(caller) && id in t.rows
    ensures DeleteAdvice(t, caller, id).response.status == StatusOk
    ensures var t1 := DeleteAdvice(t, caller, id).table;
      DeleteAdvice(t1, caller, id) == Outcome(t1, Response(StatusNotFound, Message(MsgAdviceMissing)))
  {
  }

  /** A created advice is found afterwards by a lookup on its month. */
  lemma CreatedAdviceIsFoundByMonth(t: Table<Advice>, caller: Principal, body: AdviceInput, validate: Validator, m: int)
    requires Consistent(t) && IsAdmin(caller) && body.adviceText.Some? && body.month == Some(m)
    requires |validate(Populate(NewAdvice(), body))| == 0
    ensures var o := PostAdvice(t, caller, body, validate);
      && o.response.status == StatusCreated
      && GetAdviceByMonth(o.table, m).response.status == StatusOk
      && NewRecord(t, body) in GetAdviceByMonth(o.table, m).response.body.entities
  {
    var o := PostAdvice(t, caller, body, validate);
    var created := NewRecord(t, body);
    assert o.table.rows[t.nextId] == created;
    assert created in o.table.rows.Values;
    var r := GetAdviceByMonth(o.table, m);
    assert r.response.status != StatusNotFound by {
      assert o.table.rows[t.nextId].month == Some(m);
    }
  }

  /** An update body carrying only a month keeps the text: {A, 3} with {month: 5} becomes {A, 5}. */
  lemma MonthOnlyUpdateKeepsText(t: Table<Advice>, caller: Principal, id: int, text: string, validate: Validator)
    requires id in t.rows && t.rows[id] == Advice(Some(id), Some(text), Some(3))
    requires IsAdmin(caller) && |validate(Advice(Some(id), Some(text), Some(5)))| == 0
    ensures var o := UpdateAdvice(t, caller, id, AdviceInput(None, Some(5)), validate);
      o.response.status == StatusCreated && o.table.rows[id] == Advice(Some(id), Some(text), Some(5))
  {
  }
}

=== FILE: advice_entity.dfy ===
/**
 The Advice entity: a gardening tip for a month. Every column starts null; the
 entity's own methods set the text and the month (any int, no range check);
 only persistence gives it an id.
 */
module AdviceEntity {
  import opened Common

  datatype Advice = Advice(id: Option<int>, adviceText: Option<string>, month: Option<int>)

  /** `new Advice()`: nothing is set yet. */
  function NewAdvice(): (a: Advice)
    ensures GetId(a).None? && GetAdviceText(a).None? && GetMonth(a).None?
  {
    Advice(None, None, None)
  }

  function GetId(a: Advice): Option<int> {
    a.id
  }

  function GetAdviceText(a: Advice): Option<string> {
    a.adviceText
  }

  function GetMonth(a: Advice): Option<int> {
    a.month
  }

  /** `setAdviceText`: reading the text back gives the new value; id and month are untouched. */
  function SetAdviceText(a: Advice, text: string): (r: Advice)
    ensures GetAdviceText(r) == Some(text)
    ensures GetId(r) == GetId(a) && GetMonth(r) == GetMonth(a)
  {
    a.(adviceText := Some(text))
  }

  /** `setMonth`: stores any int as given; id and text are untouched. */
  function SetMonth(a: Advice, month: int): (r: Advice)
    ensures GetMonth(r) == Some(month)
    ensures GetId(r) == GetId(a) && GetAdviceText(r) == GetAdviceText(a)
  {
    a.(month := Some(month))
  }

  /**
   Whether a flush can store the record: both columns are mapped with a
   plain `#[ORM\Column]`, which is NOT NULL, so a record lacking its text or
   its month is refused by the database.
   */
  predicate Persistable(a: Advice) {
    a.adviceText.Some? && a.month.Some?
  }

  /** A call to one of the entity's public mutators; the class has no `setId`. */
  datatype Mutator = CallSetAdviceText(text: string) | CallSetMonth(month: int)

  function Apply(a: Advice, call: Mutator): Advice {
    match call
    case CallSetAdviceText(text) => SetAdviceText(a, text)
    case CallSetMonth(month) => SetMonth(a, month)
  }

  /** The calls made one after the other, first call first. */
  function ApplyAll(a: Advice, calls: seq<Mutator>): Advice
    decreases |calls|
  {
    if |calls| == 0 then a else ApplyAll(Apply(a, calls[0]), calls[1..])
  }

  /** No sequence of entity method calls assigns or changes the id. */
  lemma {:induction false} MutatorsNeverAssignId(a: Advice, calls: seq<Mutator>)
    ensures GetId(ApplyAll(a, calls)) == GetId(a)
    decreases |calls|
  {
    if |calls| > 0 {
      MutatorsNeverAssignId(Apply(a, calls[0]), calls[1..]);
    }
  }

  /** When the last call sets the text, reading the text back gives that text. */
  lemma {:induction false} LastSetTextWins(a: Advice, calls: seq<Mutator>, text: string)
    requires |calls| > 0 && calls[|calls| - 1] == CallSetAdviceText(text)
    ensures GetAdviceText(ApplyAll(a, calls)) == Some(text)
    decreases |calls|
  {
    if |calls| > 1 {
      LastSetTextWins(Apply(a, calls[0]), calls[1..], text);
    }
  }

  /** When no call sets the text, the original text is kept. */
  lemma {:induction false} TextKeptWithoutTextSetter(a: Advice, calls: seq<Mutator>)
    requires forall i :: 0 <= i < |calls| ==> calls[i].CallSetMonth?
    ensures GetAdviceText(ApplyAll(a, calls)) == GetAdviceText(a)
    decreases |calls|
  {
    if |calls| > 0 {
      TextKeptWithoutTextSetter(Apply(a, calls[0]), calls[1..]);
    }
  }
}

=== FILE: common.dfy ===
/**
 Values shared by every controller: optional values, the HTTP status codes
 the handlers answer with, the validator's output, and PHP's conversion of an
 integer to its decimal string.
 */
module Common {

  /** A nullable PHP value: `None` is `null` (or an absent JSON field). */
  datatype Option<+T> = None | Some(value: T) {
    function GetOr(default: T): T {
      match this
      case Some(v) => v
      case None => default
    }
  }

  const StatusOk: int := 200
  const StatusCreated: int := 201
  const StatusBadRequest: int := 400
  const StatusUnauthorized: int := 401
  const StatusForbidden: int := 403
  const StatusNotFound: int := 404
  const StatusInternalServerError: int := 500

  /** A JSON response: its status code and a body of a controller-specific kind. */
  datatype Response<+B> = Response(status: int, body: B)

  /** One constraint violation as reported by the validator. */
  datatype Violation = Violation(propertyPath: string, message: string)

  /**
   What a controller answers with: a message, the serialized entity or list of
   entities, the validator's violations, or one of the framework's error pages
   (entity not found, access denied, an uncaught exception).
   */
  datatype Body<+E> =
    | Message(text: string)
    | EntityJson(entity: E)
    | ListJson(entities: seq<E>)
    | ViolationsJson(violations: seq<Violation>)
    | EntityNotFound
    | AccessDenied
    | ServerError

  predicate IsAsciiDigit(c: char) {
    '0' <= c <= '9'
  }

  predicate AllAsciiDigits(s: string) {
    forall i :: 0 <= i < |s| ==> IsAsciiDigit(s[i])
  }

  function DigitChar(d: int): char
    requires 0 <= d < 10
  {
    ['0', '1', '2', '3', '4', '5', '6', '7', '8', '9'][d]
  }

  /** The value of one ASCII digit. */
  function DigitValue(c: char): int {
    c as int - '0' as int
  }

  /** The number a string of decimal digits denotes, most significant first. */
  function DecimalValue(s: string): int
    decreases |s|
  {
    if |s| == 0 then 0 else DecimalValue(s[..|s| - 1]) * 10 + DigitValue(s[|s| - 1])
  }

  lemma DigitRoundTrip(d: int)
    requires 0 <= d < 10
    ensures DigitValue(DigitChar(d)) == d
  {
  }

  /** Reading back the decimal rendering gives the number. */
  lemma {:induction false} DecimalRoundTrip(n: nat)
    ensures DecimalValue(Decimal(n)) == n
    decreases n
  {
    var s := Decimal(n);
    if n < 10 {
      assert s[..|s| - 1] == [];
      DigitRoundTrip(n);
    } else {
      DecimalRoundTrip(n / 10);
      assert s[..|s| - 1] == Decimal(n / 10);
      DigitRoundTrip(n % 10);
    }
  }

  /** Decimal digits of a non-negative integer, most significant first, no leading zero. */
  function Decimal(n: nat): string
    decreases n
  {
    if n < 10 then [DigitChar(n)] else Decimal(n / 10) + [DigitChar(n % 10)]
  }

  /** Every character of a decimal rendering is an ASCII digit, and only zero itself starts with '0'. */
  lemma {:induction false} DecimalIsDigits(n: nat)
    ensures AllAsciiDigits(Decimal(n))
    ensures |Decimal(n)| >= 1
    ensures Decimal(n)[0] == '0' <==> n == 0
    decreases n
  {
    if n >= 10 {
      DecimalIsDigits(n / 10);
      var s := Decimal(n / 10) + [DigitChar(n % 10)];
      assert forall i :: 0 <= i < |Decimal(n / 10)| ==> s[i] == Decimal(n / 10)[i];
    }
  }

  /** PHP's `(string)$n` for an int: a leading minus sign for a negative value, then the decimal digits. */
  function IntToString(n: int): string {
    if n < 0 then "-" + Decimal(-n) else Decimal(n)
  }

  /**
   What the cast produces: ASCII digits without a leading zero (except for 0
   itself), behind a minus sign for a negative value, reading back as the number.
   */
  lemma IntToStringShape(n: int)
    ensures var s := IntToString(n);
      n >= 0 ==> |s| >= 1 && AllAsciiDigits(s) && (s[0] == '0' <==> n == 0) && DecimalValue(s) == n
    ensures var s := IntToString(n);
      n < 0 ==> |s| >= 2 && s[0] == '-' && AllAsciiDigits(s[1..]) && s[1] != '0' && DecimalValue(s[1..]) == -n
  {
    if n < 0 {
      NegativeCast(n);
    } else {
      NonNegativeCast(n);
    }
  }

  lemma NonNegativeCast(n: int)
    requires n >= 0
    ensures var s := IntToString(n);
      |s| >= 1 && AllAsciiDigits(s) && (s[0] == '0' <==> n == 0) && DecimalValue(s) == n
  {
    DecimalIsDigits(n);
    DecimalRoundTrip(n);
  }

  lemma NegativeCast(n: int)
    requires n < 0
    ensures var s := IntToString(n);
      |s| >= 2 && s[0] == '-' && AllAsciiDigits(s[1..]) && s[1] != '0' && DecimalValue(s[1..]) == -n
  {
    NegativeRendering(-n);
  }

  /** A minus sign before the digits of m: the part after the sign reads back as m. */
  lemma NegativeRendering(m: nat)
    requires m >= 1
    ensures var s := "-" + Decimal(m);
      |s| >= 2 && s[0] == '-' && AllAsciiDigits(s[1..]) && s[1] != '0' && DecimalValue(s[1..]) == m
  {
    DecimalIsDigits(m);
    DecimalRoundTrip(m);
    assert ("-" + Decimal(m))[1..] == Decimal(m);
  }

  /** Different ints never render alike. */
  lemma IntToStringInjective(a: int, b: int)
    ensures IntToString(a) == IntToString(b) <==> a == b
  {
    IntToStringShape(a);
    IntToStringShape(b);
    var s := IntToString(a);
    if s == IntToString(b) {
      if a >= 0 && b >= 0 {
        assert a == DecimalValue(s) == b;
      } else if a < 0 && b < 0 {
        assert -a == DecimalValue(s[1..]) == -b;
      }
    }
  }

  /** A number with five decimal digits renders as exactly five ASCII digits. */
  lemma FiveDigitDecimal(n: int)
    requires 10000 <= n <= 99999
    ensures |IntToString(n)| == 5
    ensures AllAsciiDigits(IntToString(n))
  {
    var n1 := n / 10;
    var n2 := n1 / 10;
    var n3 := n2 / 10;
    var n4 := n3 / 10;
    assert 1 <= n4 <= 9;
    assert |Decimal(n4)| == 1;
    assert |Decimal(n3)| == 2;
    assert |Decimal(n2)| == 3;
    assert |Decimal(n1)| == 4;
    assert |Decimal(n)| == 5;
    DecimalIsDigits(n);
  }
}

=== FILE: fixtures.dfy ===
/**
 The seed data: twelve advices, one per month, and two users (an admin and a
 plain user) with hashed passwords. `Load` starts from purged tables whose
 auto-increment counters stand wherever the purge left them.
 */
module Fixtures {
  import opened Common
  import opened Repository
  import opened AdviceEntity
  import opened UserEntity
  import opened Security
  import AdviceController
  import UserController

  /** The advice texts, month 1 first. */
  const AdviceTexts: seq<string> := [
    "Conseil de janvier : Préparez votre jardin pour l'hiver.",
    "Conseil de février : Taillez les arbres et arbustes.",
    "Conseil de mars : Semez les premières plantes.",
    "Conseil d'avril : Plantez les légumes résistants.",
    "Conseil de mai : Arrosez régulièrement vos plantations.",
    "Conseil de juin : Protégez vos plantes des insectes.",
    "Conseil de juillet : Récoltez vos fruits et légumes.",
    "Conseil d'août : Faites attention à la sécheresse.",
    "Conseil de septembre : Préparez le jardin pour l'automne.",
    "Conseil d'octobre : Plantez des bulbes pour le printemps.",
    "Conseil de novembre : Protégez vos plantes du gel.",
    "Conseil de décembre : Nettoyez vos outils de jardin."
  ]

  /** One seeded account; the postcode is given as an integer, as in the seed table. */
  datatype UserSeed = UserSeed(email: string, password: string, roles: seq<string>, postCode: int)

  const UserSeeds: seq<UserSeed> := [
    UserSeed("admin@admin.com", "admin123", [RoleAdmin], 71300),
    UserSeed("user@user.com", "user123", [RoleUser], 33000)
  ]

  /** The advice `load` builds for month `m` of a text table (texts[0] is month 1), before it gets an id. */
  function SeedAdvice(texts: seq<string>, m: int): (a: Advice)
    requires 1 <= m <= |texts|
    ensures a.id.None? && a.month == Some(m) && a.adviceText == Some(texts[m - 1])
  {
    SetMonth(SetAdviceText(NewAdvice(), texts[m - 1]), m)
  }

  /** The user the hasher is given for a seed: email, roles and postcode set, no password yet. */
  function SeedUser(seed: UserSeed): User {
    User(None, Some(seed.email), seed.roles, None, Some(IntToString(seed.postCode)))
  }

  /** The key side of a table holding the first `n` seeds: keys first..first+n-1, counter just past them. */
  ghost predicate KeysUpTo<T>(t: Table<T>, first: int, n: nat) {
    && Valid(t)
    && t.nextId == first + n
    && |t.rows| == n
    && (forall k :: k in t.rows <==> first <= k < first + n)
  }

  /** Inserting one more row keeps the keys contiguous. */
  lemma NextKeys<T>(t: Table<T>, row: T, first: int, n: nat)
    requires first >= 1 && KeysUpTo(t, first, n)
    ensures KeysUpTo(Insert(t, row), first, n + 1)
  {
    assert forall k :: k in Insert(t, row).rows <==> k in t.rows || k == t.nextId;
  }

  /** The advice rows of the first `n` months: month m under key first+m-1. */
  ghost predicate AdviceRowsUpTo(texts: seq<string>, t: Table<Advice>, first: int, n: nat)
    requires n <= |texts|
  {
    forall k :: k in t.rows && first <= k < first + n ==> t.rows[k] == SeedAdvice(texts, k - first + 1).(id := Some(k))
  }

  /** The first `n` advices of the text table, stored under keys first..first+n-1. */
  ghost predicate AdvicesUpTo(texts: seq<string>, t: Table<Advice>, first: int, n: nat)
    requires n <= |texts|
  {
    && KeysUpTo(t, first, n)
    && AdviceController.Consistent(t)
    && AdviceRowsUpTo(texts, t, first, n)
  }

  /** Advice rows exactly as `Load` leaves them. */
  ghost predicate SeededAdvices(t: Table<Advice>, first: int) {
    AdvicesUpTo(AdviceTexts, t, first, |AdviceTexts|)
  }

  /** Inserting a complete row that carries the next key keeps the table consistent. */
  lemma NextAdviceIds(t: Table<Advice>, row: Advice)
    requires AdviceController.Consistent(t) && row.id == Some(t.nextId) && Persistable(row)
    ensures AdviceController.Consistent(Insert(t, row))
  {
    var t' := Insert(t, row);
    assert forall k :: k in t'.rows ==> t'.rows[k].id == Some(k);
  }

  /** Persisting month m's advice under key first+m-1 extends the stored months by one. */
  lemma NextAdviceRows(texts: seq<string>, t: Table<Advice>, first: int, m: int)
    requires 1 <= m <= |texts| && t.nextId == first + m - 1 && AdviceRowsUpTo(texts, t, first, m - 1)
    ensures AdviceRowsUpTo(texts, Insert(t, SeedAdvice(texts, m).(id := Some(t.nextId))), first, m)
  {
    var t' := Insert(t, SeedAdvice(texts, m).(id := Some(t.nextId)));
    forall k | k in t'.rows && first <= k < first + m
      ensures t'.rows[k] == SeedAdvice(texts, k - first + 1).(id := Some(k))
    {
      if k != t.nextId {
        assert t'.rows[k] == t.rows[k];
      }
    }
  }

  /** Persisting the advice for the next month extends the stored prefix by one. */
  lemma PersistNextAdvice(texts: seq<string>, t: Table<Advice>, first: int, m: int)
    requires 1 <= m <= |texts| && first >= 1 && AdvicesUpTo(texts, t, first, m - 1)
    ensures AdvicesUpTo(texts, Insert(t, SeedAdvice(texts, m).(id := Some(t.nextId))), first, m)
  {
    var row := SeedAdvice(texts, m).(id := Some(t.nextId));
    NextKeys(t, row, first, m - 1);
    NextAdviceIds(t, row);
    NextAdviceRows(texts, t, first, m);
  }

  /**
   The foreach over a text table: one advice per entry, month m carrying the
   m-th text, persisted in month order.
   */
  method PersistAdvices(texts: seq<string>, first: int) returns (t: Table<Advice>)
    requires first >= 1
    ensures AdvicesUpTo(texts, t, first, |texts|)
  {
    t := Table(map[], first);
    var m := 1;
    while m <= |texts|
      invariant 1 <= m <= |texts| + 1
      invariant AdvicesUpTo(texts, t, first, m - 1)
    {
      PersistNextAdvice(texts, t, first, m);
      t := Insert(t, SeedAdvice(texts, m).(id := Some(t.nextId)));
      m := m + 1;
    }
  }

  /** load, advice half: the twelve seeded advices. */
  method LoadAdvices(first: int) returns (t: Table<Advice>)
    requires first >= 1
    ensures SeededAdvices(t, first)
    ensures |t.rows| == 12
  {
    t := PersistAdvices(AdviceTexts, first);
  }

  /** The seeded user `seed` as stored under key `k`: its password is the hash of its plaintext. */
  function StoredSeedUser(seed: UserSeed, k: int, hasher: Hasher): User {
    SeedUser(seed).(password := Some(hasher(SeedUser(seed), seed.password))).(id := Some(k))
  }

  /** The rows of the first `n` seeds of a seed list: seed i under key first+i. */
  ghost predicate UserRowsUpTo(seeds: seq<UserSeed>, t: Table<User>, first: int, n: nat, hasher: Hasher)
    requires n <= |seeds|
  {
    forall k :: k in t.rows && first <= k < first + n ==> t.rows[k] == StoredSeedUser(seeds[k - first], k, hasher)
  }

  /** The first `n` seeds of a seed list, stored under keys first..first+n-1. */
  ghost predicate UsersUpTo(seeds: seq<UserSeed>, t: Table<User>, first: int, n: nat, hasher: Hasher)
    requires n <= |seeds|
  {
    KeysUpTo(t, first, n) && UserRowsUpTo(seeds, t, first, n, hasher)
  }

  /** Users as `Load` leaves them. */
  ghost predicate SeededUsers(t: Table<User>, first: int, hasher: Hasher) {
    UsersUpTo(UserSeeds, t, first, |UserSeeds|, hasher)
  }

  /** After persisting seed i under key first+i, the row under any key k of the prefix is seed k-first's. */
  lemma NextUserRow(seeds: seq<UserSeed>, t: Table<User>, row: User, first: int, i: nat, hasher: Hasher, k: int)
    requires i < |seeds| && t.nextId == first + i && UserRowsUpTo(seeds, t, first, i, hasher)
    requires row == StoredSeedUser(seeds[i], t.nextId, hasher)
    requires k in t.rows[t.nextId := row] && first <= k < first + i + 1
    ensures t.rows[t.nextId := row][k] == StoredSeedUser(seeds[k - first], k, hasher)
  {
    if k != t.nextId {
      assert k in t.rows;
    }
  }

  /** Persisting seed i under key first+i extends the stored seeds by one. */
  lemma NextUserRows(seeds: seq<UserSeed>, t: Table<User>, first: int, i: nat, hasher: Hasher)
    requires i < |seeds| && t.nextId == first + i && UserRowsUpTo(seeds, t, first, i, hasher)
    ensures UserRowsUpTo(seeds, t.(rows := t.rows[t.nextId := StoredSeedUser(seeds[i], t.nextId, hasher)]), first, i + 1, hasher)
  {
    var row := StoredSeedUser(seeds[i], t.nextId, hasher);
    var rows' := t.rows[t.nextId := row];
    forall k | k in rows' && first <= k < first + i + 1
      ensures rows'[k] == StoredSeedUser(seeds[k - first], k, hasher)
    {
      NextUserRow(seeds, t, row, first, i, hasher, k);
    }
  }

  /** Hashing and persisting the next seed extends the seeded prefix by one. */
  lemma PersistNextUser(seeds: seq<UserSeed>, t: Table<User>, first: int, i: nat, hasher: Hasher)
    requires i < |seeds| && first >= 1 && UsersUpTo(seeds, t, first, i, hasher)
    ensures UsersUpTo(seeds, Insert(t, StoredSeedUser(seeds[i], t.nextId, hasher)), first, i + 1, hasher)
  {
    NextKeys(t, StoredSeedUser(seeds[i], t.nextId, hasher), first, i);
    NextUserRows(seeds, t, first, i, hasher);
    var row := StoredSeedUser(seeds[i], t.nextId, hasher);
    assert Insert(t, row).rows == t.(rows := t.rows[t.nextId := row]).rows;
  }

  /** The foreach over a seed list: each seed built, its plaintext hashed and set before it is persisted. */
  method PersistUsers(seeds: seq<UserSeed>, first: int, hasher: Hasher) returns (t: Table<User>)
    requires first >= 1
    ensures UsersUpTo(seeds, t, first, |seeds|, hasher)
  {
    t := Table(map[], first);
    var i := 0;
    while i < |seeds|
      invariant 0 <= i <= |seeds|
      invariant UsersUpTo(seeds, t, first, i, hasher)
    {
      var seed := seeds[i];
      var user := SeedUser(seed);
      var hashed := hasher(user, seed.password);
      user := user.(password := Some(hashed));
      PersistNextUser(seeds, t, first, i, hasher);
      t := Insert(t, user.(id := Some(t.nextId)));
      i := i + 1;
    }
  }

  /** load, user half: the two seeded accounts. */
  method LoadUsers(first: int, hasher: Hasher) returns (t: Table<User>)
    requires first >= 1
    ensures SeededUsers(t, first, hasher)
    ensures |t.rows| == 2
  {
    t := PersistUsers(UserSeeds, first, hasher);
  }

  /** load: both halves, advices first. */
  method Load(firstAdviceId: int, firstUserId: int, hasher: Hasher) returns (advices: Table<Advice>, users: Table<User>)
    requires firstAdviceId >= 1 && firstUserId >= 1
    ensures SeededAdvices(advices, firstAdviceId)
    ensures SeededUsers(users, firstUserId, hasher)
  {
    advices := LoadAdvices(firstAdviceId);
    users := LoadUsers(firstUserId, hasher);
  }

  /** Field by field: the advice under key k has the (k-first)-th text and month k-first+1. */
  lemma AdviceRowFields(texts: seq<string>, t: Table<Advice>, first: int)
    requires AdvicesUpTo(texts, t, first, |texts|)
    ensures forall k :: k in t.rows ==>
      && 0 <= k - first < |texts|
      && t.rows[k].adviceText == Some(texts[k - first])
      && t.rows[k].month == Some(k - first + 1)
  {
    forall k | k in t.rows
      ensures 0 <= k - first < |texts| && t.rows[k].adviceText == Some(texts[k - first]) && t.rows[k].month == Some(k - first + 1)
    {
      assert t.rows[k] == SeedAdvice(texts, k - first + 1).(id := Some(k));
    }
  }

  /** Over any text table without empty entries: non-empty texts, months 1..|texts|, each month exactly once. */
  lemma AdvicesCoverEachMonthOnce(texts: seq<string>, t: Table<Advice>, first: int)
    requires AdvicesUpTo(texts, t, first, |texts|)
    requires forall i :: 0 <= i < |texts| ==> |texts[i]| > 0
    ensures forall k :: k in t.rows ==> t.rows[k].adviceText.Some? && |t.rows[k].adviceText.value| > 0
    ensures forall k :: k in t.rows ==> t.rows[k].month.Some? && 1 <= t.rows[k].month.value <= |texts|
    ensures forall m :: 1 <= m <= |texts| ==> first + m - 1 in t.rows && t.rows[first + m - 1].month == Some(m)
    ensures forall k1, k2 :: k1 in t.rows && k2 in t.rows && t.rows[k1].month == t.rows[k2].month ==> k1 == k2
  {
    AdviceRowFields(texts, t, first);
    MonthsFromFields(texts, t, first);
  }

  /** The month facts follow from the keys and the per-row fields alone. */
  lemma MonthsFromFields(texts: seq<string>, t: Table<Advice>, first: int)
    requires forall k :: k in t.rows <==> first <= k < first + |texts|
    requires forall k :: k in t.rows ==>
      && 0 <= k - first < |texts|
      && t.rows[k].adviceText == Some(texts[k - first])
      && t.rows[k].month == Some(k - first + 1)
    requires forall i :: 0 <= i < |texts| ==> |texts[i]| > 0
    ensures forall k :: k in t.rows ==> t.rows[k].adviceText.Some? && |t.rows[k].adviceText.value| > 0
    ensures forall k :: k in t.rows ==> t.rows[k].month.Some? && 1 <= t.rows[k].month.value <= |texts|
    ensures forall m :: 1 <= m <= |texts| ==> first + m - 1 in t.rows && t.rows[first + m - 1].month == Some(m)
    ensures forall k1, k2 :: k1 in t.rows && k2 in t.rows && t.rows[k1].month == t.rows[k2].month ==> k1 == k2
  {
  }

  /** None of the twelve texts is empty. */
  lemma AdviceTextsNonEmpty()
    ensures |AdviceTexts| == 12
    ensures forall i :: 0 <= i < |AdviceTexts| ==> |AdviceTexts[i]| > 0
  {
  }

  /** Every seeded advice has a non-empty text and a month in 1..12, and each month has exactly one. */
  lemma SeededAdvicesCoverEachMonthOnce(t: Table<Advice>, first: int)
    requires SeededAdvices(t, first)
    ensures forall k :: k in t.rows ==> t.rows[k].adviceText.Some? && |t.rows[k].adviceText.value| > 0
    ensures forall k :: k in t.rows ==> t.rows[k].month.Some? && 1 <= t.rows[k].month.value <= 12
    ensures forall m :: 1 <= m <= 12 ==> first + m - 1 in t.rows && t.rows[first + m - 1].month == Some(m)
    ensures forall k1, k2 :: k1 in t.rows && k2 in t.rows && t.rows[k1].month == t.rows[k2].month ==> k1 == k2
  {
    AdviceTextsNonEmpty();
    AdvicesCoverEachMonthOnce(AdviceTexts, t, first);
  }

  /** On the seeded table a month lookup answers 200 for 1..12 and 404 for any other month, 13 included. */
  lemma SeededMonthLookup(t: Table<Advice>, first: int, m: int)
    requires SeededAdvices(t, first)
    ensures AdviceController.GetAdviceByMonth(t, m).response.status == (if 1 <= m <= 12 then StatusOk else StatusNotFound)
  {
    SeededAdvicesCoverEachMonthOnce(t, first);
    if 1 <= m <= 12 {
      assert t.rows[first + m - 1].month == Some(m);
    }
  }

  /** The seeded users: distinct emails, one admin and one plain user, valid postcodes, hashed passwords. */
  lemma SeededUsersAsExpected(t: Table<User>, first: int, hasher: Hasher)
    requires SeededUsers(t, first, hasher)
    ensures first in t.rows && first + 1 in t.rows && |t.rows| == 2
    ensures t.rows[first].email == Some("admin@admin.com") && t.rows[first].roles == [RoleAdmin]
    ensures t.rows[first + 1].email == Some("user@user.com") && t.rows[first + 1].roles == [RoleUser]
    ensures t.rows[first].email != t.rows[first + 1].email
    ensures forall k :: k in t.rows ==> t.rows[k].postCode.Some? && UserController.PostCodeMatches(t.rows[k].postCode.value)
    ensures t.rows[first].password == Some(hasher(SeedUser(UserSeeds[0]), "admin123"))
    ensures t.rows[first + 1].password == Some(hasher(SeedUser(UserSeeds[1]), "user123"))
  {
    assert t.rows.Keys == {first, first + 1} by {
      assert forall k :: k in t.rows.Keys <==> k in {first, first + 1};
    }
    UserController.FiveDigitIntegerPasses(71300);
    UserController.FiveDigitIntegerPasses(33000);
  }
}

=== FILE: repository.dfy ===
/**
 A relational table as the controllers see it through their repositories and
 the entity manager: rows by primary key, and the auto-increment counter that
 hands out the next key on insert. Keys are never reused.
 */
module Repository {
  import opened Common

  datatype Table<T> = Table(rows: map<int, T>, nextId: int)

  /** Every stored key is positive and was handed out by the counter. */
  ghost predicate Valid<T>(t: Table<T>) {
    t.nextId >= 1 && forall k :: k in t.rows ==> 1 <= k < t.nextId
  }

  /** `find($id)`: the row under that key, or null. */
  function Find<T>(t: Table<T>, id: int): (r: Option<T>)
    ensures r.None? <==> id !in t.rows
    ensures r.Some? ==> id in t.rows && r.value == t.rows[id]
  {
    if id in t.rows then Some(t.rows[id]) else None
  }

  /** `persist` + `flush` of a new row: it is stored under the next key, nothing else changes. */
  function Insert<T>(t: Table<T>, row: T): (r: Table<T>)
    ensures Valid(t) ==> Valid(r) && t.nextId !in t.rows && |r.rows| == |t.rows| + 1
    ensures r.rows.Keys == t.rows.Keys + {t.nextId}
    ensures t.nextId in r.rows && r.rows[t.nextId] == row
    ensures forall k :: k in t.rows && k != t.nextId ==> r.rows[k] == t.rows[k]
    ensures r.nextId == t.nextId + 1
  {
    Table(t.rows[t.nextId := row], t.nextId + 1)
  }

  /** `flush` of a modified managed row: same keys, only that row replaced. */
  function Save<T>(t: Table<T>, id: int, row: T): (r: Table<T>)
    requires id in t.rows
    ensures Valid(t) ==> Valid(r)
    ensures r.rows.Keys == t.rows.Keys
    ensures r.rows[id] == row
    ensures forall k :: k in t.rows && k != id ==> r.rows[k] == t.rows[k]
    ensures r.nextId == t.nextId
  {
    t.(rows := t.rows[id := row])
  }

  /** `remove` + `flush`: that key disappears, every other row stays. */
  function Delete<T>(t: Table<T>, id: int): (r: Table<T>)
    ensures Valid(t) ==> Valid(r)
    ensures r.rows.Keys == t.rows.Keys - {id}
    ensures forall k :: k in r.rows ==> r.rows[k] == t.rows[k]
    ensures r.nextId == t.nextId
  {
    t.(rows := t.rows - {id})
  }

  /**
   The keys in [lo, hi) whose rows satisfy `keep`, in ascending order: the
   order in which a table scan without ORDER BY meets auto-increment rows.
   */
  function KeysWhere<T>(rows: map<int, T>, keep: T -> bool, lo: int, hi: int): (ids: seq<int>)
    ensures forall i :: 0 <= i < |ids| ==> ids[i] in rows && lo <= ids[i] < hi && keep(rows[ids[i]])
    ensures forall k :: k in rows && lo <= k < hi && keep(rows[k]) ==> k in ids
    ensures forall i, j :: 0 <= i < j < |ids| ==> ids[i] < ids[j]
    decreases hi - lo
  {
    if lo >= hi then []
    else if lo in rows && keep(rows[lo]) then [lo] + KeysWhere(rows, keep, lo + 1, hi)
    else KeysWhere(rows, keep, lo + 1, hi)
  }

  /** The keys a `findBy` with criterion `keep` returns, in ascending order. */
  function SelectKeys<T>(t: Table<T>, keep: T -> bool): seq<int> {
    KeysWhere(t.rows, keep, 1, t.nextId)
  }

  /** `findBy`/`findAll`: the rows satisfying `keep`, one per key, in ascending key order. */
  function Select<T(==)>(t: Table<T>, keep: T -> bool): (r: seq<T>)
    ensures |r| == |SelectKeys(t, keep)|
    ensures forall i :: 0 <= i < |r| ==> SelectKeys(t, keep)[i] in t.rows && r[i] == t.rows[SelectKeys(t, keep)[i]]
    ensures forall x :: x in r ==> keep(x) && x in t.rows.Values
    ensures Valid(t) ==> forall k :: k in t.rows && keep(t.rows[k]) ==> t.rows[k] in r
  {
    var ids := SelectKeys(t, keep);
    var r := seq(|ids|, i requires 0 <= i < |ids| => t.rows[ids[i]]);
    assert forall k :: k in t.rows && 1 <= k < t.nextId && keep(t.rows[k]) ==> t.rows[k] in r by {
      forall k | k in t.rows && 1 <= k < t.nextId && keep(t.rows[k])
        ensures t.rows[k] in r
      {
        var i :| 0 <= i < |ids| && ids[i] == k;
        assert r[i] == t.rows[k];
      }
    }
    r
  }
}

=== FILE: security.dfy ===
/**
 The `#[IsGranted('ROLE_ADMIN')]` gate on the mutating routes, as a guard run
 on the caller's role set before the handler body.
 */
module Security {
  import opened Common
  import opened UserEntity

  /** Who made the request: nobody, an application User, or some other authenticated principal. */
  datatype Principal = Anonymous | Account(user: User) | OtherPrincipal(roles: seq<string>)

  const RoleAdmin: string := "ROLE_ADMIN"
  const RoleUser: string := "ROLE_USER"

  function GrantedRoles(p: Principal): seq<string> {
    match p
    case Anonymous => []
    case Account(u) => u.roles
    case OtherPrincipal(roles) => roles
  }

  predicate IsAdmin(p: Principal) {
    RoleAdmin in GrantedRoles(p)
  }

  /**
   None when the caller holds ROLE_ADMIN; otherwise the status the firewall
   answers with: 401 to an anonymous caller, 403 to an authenticated one.
   */
  function RequireAdmin(p: Principal): (denied: Option<int>)
    ensures denied.None? <==> IsAdmin(p)
    ensures denied == Some(StatusUnauthorized) <==> p.Anonymous?
    ensures denied.Some? && !p.Anonymous? ==> denied.value == StatusForbidden
  {
    if IsAdmin(p) then None
    else if p.Anonymous? then Some(StatusUnauthorized)
    else Some(StatusForbidden)
  }
}

=== FILE: user_controller.dfy ===
/**
 The user endpoints as transitions of the user table. Besides the table and
 the response, each handler reports the side effects it performed in order
 (persist, remove, flush, cache-tag invalidation), so that "the users cache is
 invalidated only after a successful write" can be stated.
 */
module UserController {
  import opened Common
  import opened Repository
  import opened UserEntity
  import opened Security

  /** A request body: the JSON fields mapped onto the entity, absent ones as None. */
  datatype UserInput = UserInput(
    email: Option<string>,
    roles: Option<seq<string>>,
    password: Option<string>,
    postCode: Option<string>)

  type UserBody = Body<User>

  /** The side effects a handler performs on the entity manager and the tag-aware cache. */
  datatype Effect = Persisted(id: int) | Removed(id: int) | Flushed | TagsInvalidated(tags: seq<string>)

  datatype Outcome = Outcome(table: Table<User>, response: Response<UserBody>, effects: seq<Effect>)

  /** The validator's verdict on a user; its constraints are not part of this model. */
  type Validator = User -> seq<Violation>

  const UsersCacheTag := "usersCache"
  const MsgInvalidPostCodeOnCreate := "Le code postal est invalide, il doit être sous le format : 10000"
  const MsgInvalidPostCodeOnUpdate := "Le code postal est invalide, il doit être sous le format : XXXXX"
  const MsgUserDeleted := "Utilisateur supprimé"

  /** Whether a `$` assertion holds at offset `p`: the end of the subject, or just before a final newline. */
  predicate DollarAt(subject: string, p: int)
    requires 0 <= p <= |subject|
  {
    p == |subject| || (p == |subject| - 1 && subject[p] == '\n')
  }

  /**
   `preg_match('/^\d{5}$/', subject)` under PCRE without the u and D
   modifiers: anchored at offset 0, five ASCII digits, then `$`.
   */
  predicate PostCodeMatches(subject: string) {
    |subject| >= 5 && (forall i :: 0 <= i < 5 ==> IsAsciiDigit(subject[i])) && DollarAt(subject, 5)
  }

  /** The pattern accepts exactly five ASCII digits, optionally followed by one newline. */
  lemma PostCodeShape(subject: string)
    ensures PostCodeMatches(subject) <==>
      || (|subject| == 5 && AllAsciiDigits(subject))
      || (|subject| == 6 && AllAsciiDigits(subject[..5]) && subject[5] == '\n')
  {
    if |subject| == 6 && AllAsciiDigits(subject[..5]) {
      assert forall i :: 0 <= i < 5 ==> subject[..5][i] == subject[i];
    }
  }

  /** A five-digit integer postcode, as the fixtures store them, passes the pattern once converted to a string. */
  lemma FiveDigitIntegerPasses(n: int)
    requires 10000 <= n <= 99999
    ensures PostCodeMatches(IntToString(n))
  {
    FiveDigitDecimal(n);
  }

  /**
   An integer postcode whose five-digit form starts with a zero (any int from
   0 to 9999, such as a postcode 01000 given as the integer 1000) loses the
   zero in the conversion and is rejected.
   */
  lemma LeadingZeroIntegerFails(n: int)
    requires 0 <= n <= 9999
    ensures |IntToString(n)| <= 4
    ensures !PostCodeMatches(IntToString(n))
  {
    var n1 := n / 10;
    var n2 := n1 / 10;
    var n3 := n2 / 10;
    if n >= 10 {
      if n >= 100 {
        if n >= 1000 {
          assert |Decimal(n3)| == 1;
        }
        assert |Decimal(n2)| <= 2;
      }
      assert |Decimal(n1)| <= 3;
    }
  }

  /** The subject `preg_match` sees for a nullable postcode: null is read as the empty string, which never matches. */
  function Subject(postCode: Option<string>): (subject: string)
    ensures postCode.Some? ==> subject == postCode.value
    ensures postCode.None? ==> !PostCodeMatches(subject)
  {
    postCode.GetOr("")
  }

  /** Deserializing a body onto an entity: present fields overwrite, absent ones are kept, the id is never touched. */
  function Populate(u: User, body: UserInput): (r: User)
    ensures r.id == u.id
    ensures r.email == (if body.email.Some? then body.email else u.email)
    ensures r.roles == (if body.roles.Some? then body.roles.value else u.roles)
    ensures r.password == (if body.password.Some? then body.password else u.password)
    ensures r.postCode == (if body.postCode.Some? then body.postCode else u.postCode)
  {
    User(
      u.id,
      if body.email.Some? then body.email else u.email,
      body.roles.GetOr(u.roles),
      if body.password.Some? then body.password else u.password,
      if body.postCode.Some? then body.postCode else u.postCode)
  }

  /** The entity createUser builds from its body before any check. */
  function Deserialized(body: UserInput): User {
    Populate(NewUser(), body)
  }

  /** The write was followed, last of all, by a flush and then the invalidation of the users cache tag. */
  predicate InvalidatesAfterWrite(effects: seq<Effect>) {
    && |effects| >= 2
    && effects[|effects| - 2] == Flushed
    && effects[|effects| - 1] == TagsInvalidated([UsersCacheTag])
  }

  predicate InvalidatesUsersCache(effects: seq<Effect>) {
    TagsInvalidated([UsersCacheTag]) in effects
  }

  /**
   createUser: admin only. The validator runs first, then the postcode
   pattern; either failure is a 400 with nothing written. Then the plaintext
   is hashed (a missing password makes the hasher's string parameter throw, a
   500), the roles are forced to ROLE_USER alone, the row is persisted and the
   users cache tag invalidated; 201 with the stored user.
   */
  function CreateUser(t: Table<User>, caller: Principal, body: UserInput, validate: Validator, hasher: Hasher): (o: Outcome)
    ensures !IsAdmin(caller) ==> o == Outcome(t, Response(RequireAdmin(caller).value, AccessDenied), [])
    ensures IsAdmin(caller) && |validate(Deserialized(body))| > 0 ==>
      o.response == Response(StatusBadRequest, ViolationsJson(validate(Deserialized(body))))
    ensures IsAdmin(caller) && |validate(Deserialized(body))| == 0 && !PostCodeMatches(Subject(body.postCode)) ==>
      o.response == Response(StatusBadRequest, Message(MsgInvalidPostCodeOnCreate))
    ensures IsAdmin(caller) && |validate(Deserialized(body))| == 0 && PostCodeMatches(Subject(body.postCode)) && body.password.None? ==>
      o.response == Response(StatusInternalServerError, ServerError)
    ensures o.response.status == StatusCreated <==>
      IsAdmin(caller) && |validate(Deserialized(body))| == 0 && PostCodeMatches(Subject(body.postCode)) && body.password.Some?
    ensures o.response.status != StatusCreated ==> o.table == t && o.effects == []
    ensures o.response.status == StatusCreated ==>
      && o.table.nextId == t.nextId + 1
      && o.table.rows.Keys == t.rows.Keys + {t.nextId}
      && (forall k :: k in t.rows && k != t.nextId ==> o.table.rows[k] == t.rows[k])
      && var stored := o.table.rows[t.nextId];
      && o.response.body == EntityJson(stored)
      && stored.id == Some(t.nextId)
      && stored.roles == [RoleUser]
      && stored.password == Some(hasher(Deserialized(body), body.password.value))
      && stored.email == body.email
      && stored.postCode == body.postCode
      && o.effects == [Persisted(t.nextId), Flushed, TagsInvalidated([UsersCacheTag])]
    ensures InvalidatesUsersCache(o.effects) <==> o.response.status == StatusCreated
  {
    match RequireAdmin(caller)
    case Some(status) => Outcome(t, Response(status, AccessDenied), [])
    case None =>
      var user := Deserialized(body);
      var errors := validate(user);
      if |errors| > 0 then
        Outcome(t, Response(StatusBadRequest, ViolationsJson(errors)), [])
      else if !PostCodeMatches(Subject(user.postCode)) then
        Outcome(t, Response(StatusBadRequest, Message(MsgInvalidPostCodeOnCreate)), [])
      else if user.password.None? then
        Outcome(t, Response(StatusInternalServerError, ServerError), [])
      else
        var hashed := user.(password := Some(hasher(user, user.password.value)));
        var stored := hashed.(roles := [RoleUser]).(id := Some(t.nextId));
        Outcome(Insert(t, stored), Response(StatusCreated, EntityJson(stored)),
                [Persisted(t.nextId), Flushed, TagsInvalidated([UsersCacheTag])])
  }

  /**
   updateUser: a missing id is a 404 from the entity argument resolver,
   before the admin gate. Present body fields overwrite the stored ones as
   they are: roles included, and the password without hashing. Validation,
   then the postcode pattern; either failure is a 400 with nothing written.
   On success the row is flushed, the users cache tag invalidated, 200.
   */
  function UpdateUser(t: Table<User>, caller: Principal, id: int, body: UserInput, validate: Validator): (o: Outcome)
    ensures o.response.status == StatusNotFound <==> id !in t.rows
    ensures id !in t.rows ==> o == Outcome(t, Response(StatusNotFound, EntityNotFound), [])
    ensures id in t.rows && !IsAdmin(caller) ==> o == Outcome(t, Response(RequireAdmin(caller).value, AccessDenied), [])
    ensures id in t.rows && IsAdmin(caller) && |validate(Populate(t.rows[id], body))| > 0 ==>
      o == Outcome(t, Response(StatusBadRequest, ViolationsJson(validate(Populate(t.rows[id], body)))), [])
    ensures (id in t.rows && IsAdmin(caller) && |validate(Populate(t.rows[id], body))| == 0 &&
             !PostCodeMatches(Subject(Populate(t.rows[id], body).postCode))) ==>
      o == Outcome(t, Response(StatusBadRequest, Message(MsgInvalidPostCodeOnUpdate)), [])
    ensures o.response.status == StatusBadRequest ==>
      id in t.rows && IsAdmin(caller) &&
      (|validate(Populate(t.rows[id], body))| > 0 || !PostCodeMatches(Subject(Populate(t.rows[id], body).postCode)))
    ensures o.response.status == StatusOk <==>
      && id in t.rows && IsAdmin(caller)
      && |validate(Populate(t.rows[id], body))| == 0
      && PostCodeMatches(Subject(Populate(t.rows[id], body).postCode))
    ensures o.response.status != StatusOk ==> o.table == t && o.effects == []
    ensures o.response.status == StatusOk ==>
      && o.table.nextId == t.nextId
      && o.table.rows.Keys == t.rows.Keys
      && (forall k :: k in t.rows && k != id ==> o.table.rows[k] == t.rows[k])
      && var before := t.rows[id];
      && var after := o.table.rows[id];
      && o.response.body == EntityJson(after)
      && after.id == before.id
      && after.email == (if body.email.Some? then body.email else before.email)
      && after.roles == (if body.roles.Some? then body.roles.value else before.roles)
      && after.password == (if body.password.Some? then body.password else before.password)
      && after.postCode == (if body.postCode.Some? then body.postCode else before.postCode)
      && o.effects == [Flushed, TagsInvalidated([UsersCacheTag])]
    ensures InvalidatesUsersCache(o.effects) <==> o.response.status == StatusOk
  {
    match Find(t, id)
    case None => Outcome(t, Response(StatusNotFound, EntityNotFound), [])
    case Some(current) =>
      match RequireAdmin(caller)
      case Some(status) => Outcome(t, Response(status, AccessDenied), [])
      case None =>
        var user := Populate(current, body);
        var errors := validate(user);
        if |errors| > 0 then
          Outcome(t, Response(StatusBadRequest, ViolationsJson(errors)), [])
        else if !PostCodeMatches(Subject(user.postCode)) then
          Outcome(t, Response(StatusBadRequest, Message(MsgInvalidPostCodeOnUpdate)), [])
        else
          Outcome(Save(t, id, user), Response(StatusOk, EntityJson(user)), [Flushed, TagsInvalidated([UsersCacheTag])])
  }

  /**
   deleteUser: a missing id is a 404 from the entity argument resolver,
   before the admin gate; otherwise only that user is removed, the users
   cache tag invalidated, 200.
   */
  function DeleteUser(t: Table<User>, caller: Principal, id: int): (o: Outcome)
    ensures o.response.status == StatusNotFound <==> id !in t.rows
    ensures id !in t.rows ==> o == Outcome(t, Response(StatusNotFound, EntityNotFound), [])
    ensures id in t.rows && !IsAdmin(caller) ==> o == Outcome(t, Response(RequireAdmin(caller).value, AccessDenied), [])
    ensures o.response.status == StatusOk <==> id in t.rows && IsAdmin(caller)
    ensures o.response.status != StatusOk ==> o.table == t && o.effects == []
    ensures o.response.status == StatusOk ==>
      && o.response.body == Message(MsgUserDeleted)
      && o.table.nextId == t.nextId
      && o.table.rows.Keys == t.rows.Keys - {id}
      && (forall k :: k in o.table.rows ==> o.table.rows[k] == t.rows[k])
      && o.effects == [Removed(id), Flushed, TagsInvalidated([UsersCacheTag])]
    ensures InvalidatesUsersCache(o.effects) <==> o.response.status == StatusOk
  {
    match Find(t, id)
    case None => Outcome(t, Response(StatusNotFound, EntityNotFound), [])
    case Some(_) =>
      match RequireAdmin(caller)
      case Some(status) => Outcome(t, Response(status, AccessDenied), [])
      case None =>
        Outcome(Delete(t, id), Response(StatusOk, Message(MsgUserDeleted)), [Removed(id), Flushed, TagsInvalidated([UsersCacheTag])])
  }

  /** Every invalidation of the users cache comes last, right after the flush that made the write durable. */
  lemma InvalidationFollowsWrite(t: Table<User>, caller: Principal, id: int, body: UserInput, validate: Validator, hasher: Hasher)
    ensures InvalidatesUsersCache(CreateUser(t, caller, body, validate, hasher).effects) ==>
      InvalidatesAfterWrite(CreateUser(t, caller, body, validate, hasher).effects)
    ensures InvalidatesUsersCache(UpdateUser(t, caller, id, body, validate).effects) ==>
      InvalidatesAfterWrite(UpdateUser(t, caller, id, body, validate).effects)
    ensures InvalidatesUsersCache(DeleteUser(t, caller, id).effects) ==>
      InvalidatesAfterWrite(DeleteUser(t, caller, id).effects)
  {
  }

  /** A three-digit postcode is refused with the postcode message and nothing is stored. */
  lemma ShortPostCodeRejected(t: Table<User>, caller: Principal, validate: Validator, hasher: Hasher)
    requires IsAdmin(caller)
    requires |validate(Deserialized(UserInput(Some("a@b.com"), None, Some("x"), Some("123"))))| == 0
    ensures var o := CreateUser(t, caller, UserInput(Some("a@b.com"), None, Some("x"), Some("123")), validate, hasher);
      o.response == Response(StatusBadRequest, Message(MsgInvalidPostCodeOnCreate)) && o.table == t
  {
  }

  /** Deleting the same user twice: the second call answers 404 and writes nothing. */
  lemma DeleteUserTwiceIsNotFound(t: Table<User>, caller: Principal, id: int)
    requires IsAdmin(caller) && id in t.rows
    ensures var t1 := DeleteUser(t, caller, id).table;
      var o2 := DeleteUser(t1, caller, id);
      o2.response.status == StatusNotFound && o2.table == t1 && o2.effects == []
  {
  }
}

=== FILE: user_entity.dfy ===
/**
 The User entity as the controllers and fixtures use it: email, roles,
 password (plaintext until hashed), postcode, and a generated id. The entity
 class itself is not part of this model; its fields are those its callers read
 and write.
 */
module UserEntity {
  import opened Common

  datatype User = User(
    id: Option<int>,
    email: Option<string>,
    roles: seq<string>,
    password: Option<string>,
    postCode: Option<string>)

  /** `new User()`: no role, every other field null. */
  function NewUser(): (u: User)
    ensures u.id.None? && u.email.None? && u.password.None? && u.postCode.None? && |u.roles| == 0
  {
    User(None, None, [], None, None)
  }

  /**
   The password hasher: `hashPassword($user, $plain)`. It is given the user
   being hashed for (its configuration is chosen per user class) and the
   plaintext; its algorithm and salt are not modelled.
   */
  type Hasher = (User, string) -> string
}

=== FILE: weather_controller.dfy ===
/**
 The weather proxy: a read-through cache over the weather provider. The cache
 maps a key to a stored body and its expiry time; the clock and the provider
 are parameters. A hit serves the stored body without calling the provider; a
 miss calls it once and stores the answer (or a fixed error JSON when the
 provider does not answer 200) for an hour. The response is 200 either way,
 unless the cache checks keys and refuses the key.
 */
module WeatherController {
  import opened Common
  import opened UserEntity
  import opened Security

  /** A cached body and the time (in seconds) from which it is stale. */
  datatype Entry = Entry(value: string, expiresAt: int)

  type Cache = map<string, Entry>

  /** What the provider answers for a location query: status and body. */
  datatype Reply = Reply(status: int, content: string)

  /** The provider, as a function of the location identifier sent as `q`. */
  type Upstream = string -> Reply

  datatype WeatherBody = RawJson(json: string) | ErrorMessage(text: string) | InvalidCacheKey

  /** The cache afterwards, the response, and the identifiers the provider was asked for, in order. */
  datatype Outcome = Outcome(cache: Cache, response: Response<WeatherBody>, upstreamCalls: seq<string>)

  const Ttl: int := 3600
  const KeyPrefix: string := "weather_"

  /** Characters a cache key may not contain; a key holding one makes a key-checking cache throw. */
  const ReservedKeyChars: string := "{}()/\\@:"

  /** `json_encode` of the error message, non-ASCII letters escaped as PHP does by default. */
  const UpstreamErrorJson: string :=
    "{\"message\":\"Erreur lors de la r\\u00e9cup\\u00e9ration des donn\\u00e9es m\\u00e9t\\u00e9o\"}"

  const MsgInvalidUser := "Utilisateur invalide"
  const MsgNoPostCode := "Code postal non défini"

  /** The key both handlers use for a location identifier. */
  function CacheKey(identifier: string): (key: string)
    ensures |key| == |KeyPrefix| + |identifier|
    ensures key[..|KeyPrefix|] == KeyPrefix && key[|KeyPrefix|..] == identifier
  {
    KeyPrefix + identifier
  }

  /** Different identifiers never share an entry. */
  lemma CacheKeyInjective(a: string, b: string)
    ensures CacheKey(a) == CacheKey(b) <==> a == b
  {
    if CacheKey(a) == CacheKey(b) {
      assert a == CacheKey(a)[|KeyPrefix|..];
    }
  }

  /** Symfony's key check: non-empty and none of the reserved characters. */
  predicate ValidKey(key: string) {
    |key| > 0 && forall i :: 0 <= i < |key| ==> key[i] !in ReservedKeyChars
  }

  /**
   Whether the cache takes the key. The adapters check keys only inside PHP
   assertions, so `checksKeys` says whether assertions are enabled: with them
   off every key is taken as it is.
   */
  predicate KeyAccepted(checksKeys: bool, key: string) {
    !checksKeys || ValidKey(key)
  }

  /** A location's key is valid exactly when the location itself holds no reserved character. */
  lemma CacheKeyValidity(identifier: string)
    ensures ValidKey(CacheKey(identifier)) <==> forall i :: 0 <= i < |identifier| ==> identifier[i] !in ReservedKeyChars
  {
    var key := CacheKey(identifier);
    assert forall i :: 0 <= i < |identifier| ==> key[|KeyPrefix| + i] == identifier[i];
    assert forall i :: 0 <= i < |KeyPrefix| ==> key[i] == KeyPrefix[i];
    if forall i :: 0 <= i < |identifier| ==> identifier[i] !in ReservedKeyChars {
      forall i | 0 <= i < |key|
        ensures key[i] !in ReservedKeyChars
      {
        if i >= |KeyPrefix| {
          assert key[i] == identifier[i - |KeyPrefix|];
        }
      }
    }
  }

  predicate IsHit(cache: Cache, key: string, now: int) {
    key in cache && now < cache[key].expiresAt
  }

  /** What a miss stores: the provider's body on 200, the error JSON on anything else. */
  function FetchBody(reply: Reply): (body: string)
    ensures reply.status == StatusOk ==> body == reply.content
    ensures reply.status != StatusOk ==> body == UpstreamErrorJson
  {
    if reply.status == StatusOk then reply.content else UpstreamErrorJson
  }

  /**
   `cache->get(key, callback)` followed by the 200 response. A key the cache
   refuses throws before the cache or the provider is touched (a 500).
   */
  function ReadThrough(cache: Cache, identifier: string, now: int, upstream: Upstream, checksKeys: bool): (o: Outcome)
    ensures !KeyAccepted(checksKeys, CacheKey(identifier)) ==>
      o == Outcome(cache, Response(StatusInternalServerError, InvalidCacheKey), [])
    ensures o.response.status == StatusOk <==> KeyAccepted(checksKeys, CacheKey(identifier))
    ensures KeyAccepted(checksKeys, CacheKey(identifier)) && IsHit(cache, CacheKey(identifier), now) ==>
      && o.cache == cache
      && o.upstreamCalls == []
      && o.response.body == RawJson(cache[CacheKey(identifier)].value)
    ensures KeyAccepted(checksKeys, CacheKey(identifier)) && !IsHit(cache, CacheKey(identifier), now) ==>
      && o.upstreamCalls == [identifier]
      && o.cache.Keys == cache.Keys + {CacheKey(identifier)}
      && o.cache[CacheKey(identifier)] == Entry(FetchBody(upstream(identifier)), now + Ttl)
      && (forall k :: k in cache && k != CacheKey(identifier) ==> o.cache[k] == cache[k])
      && o.response.body == RawJson(FetchBody(upstream(identifier)))
  {
    var key := CacheKey(identifier);
    if !KeyAccepted(checksKeys, key) then
      Outcome(cache, Response(StatusInternalServerError, InvalidCacheKey), [])
    else if IsHit(cache, key, now) then
      Outcome(cache, Response(StatusOk, RawJson(cache[key].value)), [])
    else
      var body := FetchBody(upstream(identifier));
      Outcome(cache[key := Entry(body, now + Ttl)], Response(StatusOk, RawJson(body)), [identifier])
  }

  /**
   getWeatherByCurrentUser: 500 with nothing touched when the caller is not
   an application User or has no postcode; otherwise the read-through on the
   postcode.
   */
  function GetWeatherByCurrentUser(cache: Cache, caller: Principal, now: int, upstream: Upstream, checksKeys: bool): (o: Outcome)
    ensures !caller.Account? ==>
      o == Outcome(cache, Response(StatusInternalServerError, ErrorMessage(MsgInvalidUser)), [])
    ensures caller.Account? && caller.user.postCode.None? ==>
      o == Outcome(cache, Response(StatusInternalServerError, ErrorMessage(MsgNoPostCode)), [])
    ensures caller.Account? && caller.user.postCode.Some? ==>
      o == ReadThrough(cache, caller.user.postCode.value, now, upstream, checksKeys)
    ensures o.upstreamCalls != [] ==> caller.Account? && o.upstreamCalls == [caller.user.postCode.value]
  {
    match caller
    case Account(user) =>
      if user.postCode.None? then
        Outcome(cache, Response(StatusInternalServerError, ErrorMessage(MsgNoPostCode)), [])
      else
        ReadThrough(cache, user.postCode.value, now, upstream, checksKeys)
    case _ => Outcome(cache, Response(StatusInternalServerError, ErrorMessage(MsgInvalidUser)), [])
  }

  /** getWeatherByCity: the read-through on the city name; no authentication involved. */
  function GetWeatherByCity(cache: Cache, city: string, now: int, upstream: Upstream, checksKeys: bool): (o: Outcome)
    ensures |o.upstreamCalls| <= 1
    ensures o.upstreamCalls == [] || o.upstreamCalls == [city]
    ensures o.response.status == StatusOk ==> o.response.body.RawJson?
    ensures forall k :: k in cache && k != CacheKey(city) ==> k in o.cache && o.cache[k] == cache[k]
  {
    ReadThrough(cache, city, now, upstream, checksKeys)
  }

  /** A city named like a user's postcode reads and writes the very same cache entry as that user. */
  lemma CityAndPostCodeShareEntry(cache: Cache, user: User, city: string, now: int, upstream: Upstream, checksKeys: bool)
    requires user.postCode == Some(city)
    ensures GetWeatherByCity(cache, city, now, upstream, checksKeys) ==
      GetWeatherByCurrentUser(cache, Account(user), now, upstream, checksKeys)
  {
  }

  /**
   After a miss, a second request within the hour is served from the cache:
   same body, no provider call, whatever the provider now says.
   */
  lemma SecondCallWithinTtlIsCached(cache: Cache, city: string, t1: int, t2: int, upstream1: Upstream, upstream2: Upstream, checksKeys: bool)
    requires KeyAccepted(checksKeys, CacheKey(city)) && !IsHit(cache, CacheKey(city), t1)
    requires t1 <= t2 < t1 + Ttl
    ensures var o1 := GetWeatherByCity(cache, city, t1, upstream1, checksKeys);
      var o2 := GetWeatherByCity(o1.cache, city, t2, upstream2, checksKeys);
      && o2.upstreamCalls == []
      && o2.response == o1.response
      && o2.cache == o1.cache
  {
    var o1 := GetWeatherByCity(cache, city, t1, upstream1, checksKeys);
    assert IsHit(o1.cache, CacheKey(city), t2);
  }

  /** A provider failure on a miss is served as the error JSON for the next hour, even once the provider recovers. */
  lemma FailureIsMemoized(cache: Cache, city: string, t1: int, t2: int, upstream1: Upstream, upstream2: Upstream, checksKeys: bool)
    requires KeyAccepted(checksKeys, CacheKey(city)) && !IsHit(cache, CacheKey(city), t1)
    requires upstream1(city).status != StatusOk
    requires t1 <= t2 < t1 + Ttl
    ensures var o1 := GetWeatherByCity(cache, city, t1, upstream1, checksKeys);
      GetWeatherByCity(o1.cache, city, t2, upstream2, checksKeys).response == Response(StatusOk, RawJson(UpstreamErrorJson))
  {
    SecondCallWithinTtlIsCached(cache, city, t1, t2, upstream1, upstream2, checksKeys);
  }

  /**
   With key checks on, a city holding a reserved character anywhere, such as
   "Paris:FR", is answered 500 without calling the provider or touching the cache.
   */
  lemma ReservedCharacterRejected(cache: Cache, city: string, i: int, now: int, upstream: Upstream)
    requires 0 <= i < |city| && city[i] in ReservedKeyChars
    ensures GetWeatherByCity(cache, city, now, upstream, true) ==
      Outcome(cache, Response(StatusInternalServerError, InvalidCacheKey), [])
  {
    assert CacheKey(city)[|KeyPrefix| + i] == city[i];
  }

  /** With key checks off, every city is served with 200, reserved characters included. */
  lemma UncheckedKeysAlwaysServed(cache: Cache, city: string, now: int, upstream: Upstream)
    ensures GetWeatherByCity(cache, city, now, upstream, false).response.status == StatusOk
  {
  }
}
